=== FILE: README.md ===
# Reaction-count indexer of a Discord bot, modelled in Dafny

The bot answers admin commands in a Discord server. `load` walks a
channel's history backwards, page by page, from a cursor, until it passes
a cutoff date. It keeps the messages created after that date. For each new
message it memoizes the largest reaction count and the message link. Two
queries then read this index. `count <n>` reports how many loaded messages
have a reaction count of at least `n`. `messages <n>` lists their links,
ranked from 1, twenty lines per Discord message.

The model keeps the bot's module state (loaded messages, reaction cache,
cursor, date) as one immutable `Session` record. The channel history is a
parameter: a sequence of messages, newest first. Pages are slices of that
sequence below the cursor.

Modules, one per file:

- `Wrappers`: `Option` and `Result`.
- `Source`: messages, the history and the page request.
- `Indexer`: the peak reduce and the insert-if-absent reaction cache.
- `SessionStore`: the module state and its consistency invariant.
- `Retriever`: the `load` loop, as a method and as a closed form.
- `Query`: the `count` command.
- `Decimal`, `Text` and `Listing`: the `messages` command's rendering,
  chunking and joining, each with its inverse.
- `Scenario`: a three-message worked example.

Behaviours of the bot the model keeps:

- `messages` checks only that something is loaded. It does not check that
  a date is set; `count` checks both.
- Without a date, `load` fails only when the first page is non-empty. The
  filter callback is what reads the date. An empty first page ends the
  loop before that, and the load succeeds without changing anything.
- `load` does not revisit what the cursor has passed. Setting an earlier
  date after a load and loading again misses the messages of the last page
  read that lie between the two dates (`Scenario.RedateScenario`).

## Model

| member | source | states |
|---|---|---|
| Source.Fetch | src/index.js:92 | A page holds at most 100 messages and is the stretch of history right below the cursor. It is empty only at the bottom of the history, and shorter than 100 only when it reaches the bottom. |
| Source.PositionAfter | src/index.js:99 | When ids are unique, setting the cursor to a page's last message makes the next page start right after that message. |
| Indexer.Peak | src/index.js:74-79 | The stored count of a message: the reduce over its reactions seeded with 0, so the largest count or 0 (characterized by `Indexer.PeakFromIsMax` and `Indexer.PeakIsMax`). |
| Indexer.PeakFromIsMax | src/index.js:74-77 | The reduce seeded with `{ count: 0 }` ends on the largest count: no count exceeds it, and it is the seed or one of the counts. |
| Indexer.PeakIsMax | src/index.js:74-79 | The stored count is the maximum reaction count of the message. It is one of its counts, or 0 when the message has no reactions. |
| Indexer.CacheReactions | src/index.js:71-84 | Indexing a batch: message by message, an id not yet cached gets its peak count and link, and a cached id is skipped (characterized by the `Indexer.CacheReactions…` rows below). |
| Indexer.CacheReactionsKeeps | src/index.js:73 | An id already in the cache keeps its entry unchanged. |
| Indexer.CacheReactionsKeys | src/index.js:72-82 | After indexing a batch, the cache keys are exactly the old keys plus the batch's ids. |
| Indexer.CacheReactionsFirst | src/index.js:73-81 | A new id gets the peak count and link of the first message in the batch that carries it. |
| Indexer.CacheReactionsSpec | src/index.js:71-84 | The three facts above, together. |
| Indexer.CacheReactionsConcat | src/index.js:72 | Indexing `a + b` is the same as indexing `a` and then `b`. |
| Indexer.CacheReactionsKnown | src/index.js:73 | A batch whose ids are all cached leaves the cache unchanged. |
| Indexer.CacheReactionsIdempotent | src/index.js:71-84 | Indexing the same batch twice gives the same cache as indexing it once. |
| SessionStore.InitialConsistent | src/index.js:13-17 | The start-up state (nothing loaded, no cursor, no date, empty cache) satisfies the consistency invariant. |
| SessionStore.SetCutoff | src/index.js:160-161 | `setdate`: the session with the date replaced (characterized by `SessionStore.SetCutoffConsistent`). |
| SessionStore.SetCutoffConsistent | src/index.js:160-161 | Setting the date replaces only the date. Messages, cache and cursor stay as they are, and the state stays consistent. |
| Retriever.After | src/index.js:95 | The page filter: the page's messages created strictly after the date, in page order (characterized by `Retriever.AfterMembers`, `Retriever.AfterConcat` and `Retriever.AfterUnique`). |
| Retriever.AfterMembers | src/index.js:95 | A message passes the date filter exactly when it is on the page and was created strictly after the date. |
| Retriever.AfterConcat | src/index.js:95-96 | Filtering two pages one after the other is filtering their concatenation. |
| Retriever.AfterUnique | src/index.js:95 | Filtering a page with unique ids keeps the ids unique. |
| Retriever.StopAt | src/index.js:91-104 | The loop's stopping position never lies above its start or below the bottom, and it advances whenever a page is non-empty. |
| Retriever.StopAtStops | src/index.js:99-103 | Short of the bottom, the loop stops after whole pages of 100, on a message at or before the date. Every earlier page ended on a message after the date. |
| Retriever.Load | src/index.js:86-112 | Without a date, `load` succeeds exactly when the first page is empty, and then changes nothing. Otherwise it fails with the date error. With a date it always succeeds and keeps the date. |
| Retriever.LoadMessages | src/index.js:86-112 | The `load` loop computes exactly the closed-form `Load`. |
| Retriever.FetchPages | src/index.js:89-104 | The fetch loop appends and indexes the kept messages up to the stopping position, and leaves the cursor on the last message read: it computes exactly the closed-form window. |
| Retriever.FetchRound | src/index.js:92-103 | One pass of the loop body. An empty page stops the loop and changes nothing. Otherwise the messages after the date are appended after the earlier ones, which stay in place, and indexed, and the cursor moves to the page's oldest message. The loop goes on exactly when that message is after the date. The pass keeps the loop invariant, and once it stops it has stopped where `StopAt` does. |
| Retriever.PageStop | src/index.js:101-103 | A page read from `pos` ends after 100 messages or at the bottom. The loop stops there exactly when its oldest message is at or before the date. Otherwise it goes on to the same stopping point. |
| Retriever.NothingLeftPastCutoff | src/index.js:101-103 | On a newest-first history, no message newer than the date lies below the position `StopAt` gives, where the loop stops. |
| Retriever.LoadWindowConsistent | src/index.js:95-99 | A load with a date keeps the invariant: every loaded message was read from above the cursor, ids stay unique, and the cache holds exactly the loaded ids with their own entries. |
| Retriever.LoadConsistent | src/index.js:86-112 | Every successful `load` keeps the session consistent. |
| Retriever.LoadComplete | src/index.js:91-104 | On a newest-first history, a load appends exactly the messages below the cursor that are newer than the date, in history order. |
| Retriever.ReloadAppendsNothing | src/index.js:91-104 | A second `load` right after a successful one appends no message and caches nothing new, and the cursor does not move back up. |
| Retriever.LoadWindowCursor | src/index.js:99-103 | After a load with a date, the cursor stands at the position where the loop stopped. |
| Retriever.LoadNeverRewinds | src/index.js:91-104 | A successful load never moves the cursor back up the history. |
| Query.Qualifying | src/index.js:124 | The threshold filter fails only on a missing cache entry, and never returns more messages than it was given. |
| Query.QualifyingOk | src/index.js:124 | The filter succeeds exactly when every loaded id has a cache entry. |
| Query.QualifyingMembers | src/index.js:124 | On success, it keeps exactly the messages whose cached count is at least the threshold. |
| Query.ReactedMembers | src/index.js:74-79 | The reference filter, which reads the message's own reactions, keeps exactly the messages whose largest reaction count reaches the threshold. |
| Query.QualifyingReacted | src/index.js:124 | When each message is cached with its own entry, filtering through the cache equals the reference filter. |
| Query.ReachesPeak | src/index.js:74-79 | A message reaches threshold `v` exactly when `v <= 0` or one of its reactions has at least `v` users. |
| Query.ReactedMonotone | src/index.js:124 | Raising the threshold never admits more messages. |
| Query.ReactedExtremes | src/index.js:123-124 | A threshold of at most 0 admits every message. NaN, from an unparsable argument, admits none. |
| Query.CountAtLeast | src/index.js:114-126 | Fails with the date error exactly when no date is set. Fails with the not-loaded error exactly when a date is set but nothing is loaded. Any count it returns is at most the number of loaded messages. |
| Query.LoadedCached | src/index.js:124 | On a consistent session every loaded message has a cache entry, so the lookup never meets a missing one. |
| Query.CountConsistent | src/index.js:114-126 | On a consistent session, `count` answers exactly when something is loaded, and the date check can only fire when nothing is loaded. The answer is the number of loaded messages whose reaction count reaches the threshold. |
| Query.CountAll | src/index.js:123-126 | With something loaded on a consistent session, a threshold of at most 0 counts every loaded message. |
| Decimal.ShowWellFormed | src/index.js:142 | A rank is printed as a non-empty run of digits with no leading zero. It is one digit exactly for ranks below 10. |
| Decimal.ValueShow | src/index.js:142 | Reading a printed rank back gives the rank. |
| Decimal.ShowInjective | src/index.js:142 | Different ranks print differently. |
| Text.SplitJoin | src/index.js:148 | Splitting a newline-joined chunk gives back its lines, provided there is at least one line and no line contains a newline. |
| Listing.Line | src/index.js:142 | The line for one message: the rank in decimal, a dot, a space, then the link (read back by `Listing.LineRoundTrip`). |
| Listing.LineRoundTrip | src/index.js:142 | A line `"<rank>. <link>"` reads back as the rank and link it was built from. |
| Listing.RankedLines | src/index.js:140-142 | The listing: line `i` for the `i`-th qualifying message, ranked `i + 1`, with its cached link (characterized by `Listing.RankedLinesRead`). |
| Listing.RankedLinesRead | src/index.js:140-142 | Line `i` of the listing is exactly `"<i + 1>. <link>"`, ranked by filtered position, with message `i`'s link. It reads back as that rank and link, and contains no newline. |
| Listing.Chunks | src/index.js:147-148 | The chunking loop: consecutive slices of twenty lines, the last one cut at the end (characterized by `Listing.ChunkCount`, `Listing.ChunkAt`, `Listing.ChunkSizes`, `Listing.FlattenChunks` and `Listing.ChunkPosition`). |
| Listing.ChunkCount | src/index.js:147 | The loop produces one chunk per twenty lines, rounded up. |
| Listing.ChunkAt | src/index.js:147-148 | Chunk `k` is lines `20k` to `20(k+1)`, cut at the end. |
| Listing.ChunkSizes | src/index.js:147-148 | Every chunk has 1 to 20 lines, and every chunk but the last has exactly 20. There are no chunks exactly when there are no lines. |
| Listing.FlattenChunks | src/index.js:147-148 | The chunks, concatenated in order, are the full list: nothing is dropped, repeated or reordered. |
| Listing.ChunkPosition | src/index.js:147-148 | Line `i` is line `i % 20` of chunk `i / 20`. |
| Listing.SendPages | src/index.js:147-150 | The sending loop, stepping by 20, sends exactly one joined text per chunk, in order. |
| Listing.PagesRead | src/index.js:147-148 | Each sent text splits back into its chunk's lines. |
| Listing.PagesPaged | src/index.js:140-150 | Listing lines `"<i + 1>. <link of message i>"` are sent as texts where text `k` holds as many lines as chunk `k`, and line `i % 20` of text `i / 20` is exactly line `i`, which reads back as its rank and link. |
| Listing.ListAtLeast | src/index.js:133-151 | `messages` fails with the not-loaded error exactly when nothing is loaded. Its only other failure is a missing cache entry. |
| Listing.ListConsistent | src/index.js:133-151 | On a consistent, non-empty session, `messages` never fails. It reports none found exactly when no message qualifies. Otherwise it sends one text per twenty qualifying messages, rounded up. |
| Listing.ListReadsBack | src/index.js:133-151 | When no loaded link holds a newline, as Discord's links never do, text `k` holds exactly the lines `20k` to `20(k+1)` of the listing, cut at the end. Line `i` is exactly `"<i + 1>. <link>"` for the `i`-th qualifying message in load order, and reads back as that rank and link. |
| Scenario.LoadScenario | src/index.js:91-104 | Worked example. Without a date, the first page fails the load. With the date 2 January 2024, the load keeps the messages of 5 and 3 January, caches counts 5 and 2, and leaves the cursor on the message of 1 January. |
| Scenario.QualifyingScenario | src/index.js:124 | For any threshold, the example's qualifying messages are those whose peak (5 or 2) reaches it. |
| Scenario.CountScenario | src/index.js:114-126 | Counts in the example: threshold 2 gives 2, 3 gives 1, 6 gives 0, NaN gives 0. Without a date the date error comes first; with a date and nothing loaded, the not-loaded error. |
| Scenario.ListNoneScenario | src/index.js:134-145 | Threshold 6 reports none found. Before any load the answer is the not-loaded error. |
| Scenario.ListScenario | src/index.js:140-150 | Threshold 3 sends the single line `1. <link of the 5 January message>`. |
| Scenario.ListBothScenario | src/index.js:140-150 | Threshold 1 sends one text of two newline-joined lines, ranked 1 and 2 in load order. |
| Scenario.RedateScenario | src/index.js:99 | After a load with the date 4 January, setting the date back to 2 January and loading again adds nothing. The 3 January message is never loaded. |

## Left out

- The Discord client, command dispatch, `ping`, and the reply texts: the model returns the values those replies report.
- `hasRequiredRole` and `setChannel`: the channel is the history given as a parameter, and permissions are outside the core.
- Date parsing in `setDate`: the date is given as a millisecond timestamp. An unparsable date (`Invalid Date`, whose comparisons are all false) is not modelled. With one, the real loop would read the whole history and keep nothing.
- Argument extraction and `parseInt`: the threshold is given as an integer, or `None` for NaN.
- Fetch failures, the `try`/`catch` replies and logging: a failed page request is not modelled. Apart from that, the model's failures are the ones the bot's own code raises: no date when a page is filtered, and a missing cache entry. The bot raises one more, which the model leaves out (next line).
- The channel: the model assumes one has been set. Before `setChannel` succeeds, `channel` is null, so the first page request throws before the date is read, and `load` answers with its failure reply.
- Retriever.LoadComplete: proved only for histories whose timestamps never increase from newest to oldest. Without that ordering the bot can also miss messages below a page that ends before the date.
- Retriever.LoadConsistent: assumes the channel never shows the same id twice, as Discord guarantees. It also assumes commands never overlap. The bot starts `loadMessages` without awaiting it, so two `load` commands can both read the same cursor before their first page arrives. Both then append that page, `messages` holds the same ids twice, the cache indexes them once, and `count` counts them twice. The model runs one command at a time.
- A cursor the history does not hold: after switching channels (`setChannel` keeps the cursor), or after the cursor's message is deleted between two loads. The model's page request for such a cursor is empty, so the load reads nothing and leaves the cursor where it was. Discord takes `before` as an upper bound on the id, so the real request returns the messages older than the cursor's id, in the new channel or around the deleted message. The model assumes the channel is never switched after a load and no message is deleted between loads.
- Ids are modelled by their numeric value. The bot treats them as strings, but only ever compares them for equality.

=== FILE: decimal.dfy ===
/**
 * Decimal numerals, as a template literal prints a non-negative integer,
 * and their value, so that a rendered rank can be read back.
 */
module Decimal {

  predicate IsDigit(c: char) {
    '0' <= c <= '9'
  }

  /** The numeral of one digit. */
  function DigitChar(d: nat): (c: char)
    requires d < 10
    ensures IsDigit(c)
  {
    ['0', '1', '2', '3', '4', '5', '6', '7', '8', '9'][d]
  }

  /** The value of one numeral character. */
  function DigitValue(c: char): (d: nat)
    requires IsDigit(c)
    ensures d < 10
  {
    (c as int - '0' as int) as nat
  }

  predicate AllDigits(s: string) {
    forall i :: 0 <= i < |s| ==> IsDigit(s[i])
  }

  /** The shortest decimal numeral of `n`, most significant digit first. */
  function Show(n: nat): (s: string)
    decreases n
  {
    if n < 10 then [DigitChar(n)] else Show(n / 10) + [DigitChar(n % 10)]
  }

  /** A numeral is a non-empty run of digits without a leading zero. */
  lemma {:induction false} ShowWellFormed(n: nat)
    ensures 0 < |Show(n)| && AllDigits(Show(n))
    ensures |Show(n)| > 1 ==> Show(n)[0] != '0'
    ensures n < 10 <==> |Show(n)| == 1
    decreases n
  {
    if n >= 10 {
      ShowWellFormed(n / 10);
      assert Show(n)[0] == Show(n / 10)[0];
    }
  }

  /** The value of a run of digits, read most significant digit first. */
  function Value(s: string): (v: nat)
    requires AllDigits(s)
    decreases |s|
  {
    if |s| == 0 then 0 else Value(s[..|s| - 1]) * 10 + DigitValue(s[|s| - 1])
  }

  /** Reading a numeral gives back the number shown. */
  lemma {:induction false} ValueShow(n: nat)
    ensures AllDigits(Show(n)) && Value(Show(n)) == n
    decreases n
  {
    ShowWellFormed(n);
    if n >= 10 {
      ValueShow(n / 10);
      var s := Show(n);
      assert s[..|s| - 1] == Show(n / 10);
    }
  }

  /** Different numbers have different numerals. */
  lemma ShowInjective(a: nat, b: nat)
    requires Show(a) == Show(b)
    ensures a == b
  {
    ValueShow(a);
    ValueShow(b);
  }
}

=== FILE: indexer.dfy ===
/**
 * The memoizing reaction indexer: for each message it records, once, the
 * peak single-reaction count and the message link, keyed by message id.
 */
module Indexer {
  import opened Source

  /** What the cache remembers about one message. */
  datatype Entry = Entry(count: nat, link: string)

  type Cache = map<Id, Entry>

  /** The bot's reduce over a message's reactions: start from `acc` and
      keep a count only when it is strictly larger than the best so far. */
  function PeakFrom(acc: nat, counts: seq<nat>): (r: nat)
    ensures acc <= r
    decreases |counts|
  {
    if |counts| == 0 then acc
    else PeakFrom(if counts[0] > acc then counts[0] else acc, counts[1..])
  }

  /** The reduce ends on the largest value it has seen: no count exceeds
      it, and it is the starting value or one of the counts. */
  lemma {:induction false} PeakFromIsMax(acc: nat, counts: seq<nat>)
    ensures forall i :: 0 <= i < |counts| ==> counts[i] <= PeakFrom(acc, counts)
    ensures PeakFrom(acc, counts) == acc || PeakFrom(acc, counts) in counts
    decreases |counts|
  {
    if |counts| > 0 {
      var next := if counts[0] > acc then counts[0] else acc;
      PeakFromIsMax(next, counts[1..]);
      assert forall i :: 1 <= i < |counts| ==> counts[i] == counts[1..][i - 1];
    }
  }

  /** The largest count among a message's reactions, 0 when it has none. */
  function Peak(counts: seq<nat>): (r: nat)
    ensures |counts| == 0 ==> r == 0
  {
    PeakFrom(0, counts)
  }

  /** The peak is the maximum of the counts. */
  lemma PeakIsMax(counts: seq<nat>)
    ensures forall i :: 0 <= i < |counts| ==> counts[i] <= Peak(counts)
    ensures |counts| > 0 ==> Peak(counts) in counts
  {
    PeakFromIsMax(0, counts);
    if |counts| > 0 && Peak(counts) == 0 {
      assert counts[0] == 0;
    }
  }

  /** The entry the indexer builds for a message it has not seen. */
  function Index(m: Msg): (e: Entry) {
    Entry(Peak(m.reactions), m.url)
  }

  /** `i` is the first position in `ms` carrying its id. */
  predicate FirstOccurrence(ms: seq<Msg>, i: nat)
    requires i < |ms|
  {
    forall j :: 0 <= j < i ==> ms[j].id != ms[i].id
  }

  /** In a sequence with unique ids every position is the first carrying
      its id. */
  lemma UniqueFirstOccurrence(ms: seq<Msg>, i: nat)
    requires UniqueIds(ms) && i < |ms|
    ensures FirstOccurrence(ms, i)
  {
    forall j | 0 <= j < i
      ensures ms[j].id != ms[i].id
    {
      assert IdsDiffer(ms, j, i);
    }
  }

  /** Insert-if-absent of one message. */
  function Remember(cache: Cache, m: Msg): (r: Cache) {
    if m.id in cache then cache else cache[m.id := Index(m)]
  }

  /** Indexes a batch of messages in order, one insert-if-absent per
      message. */
  function CacheReactions(cache: Cache, batch: seq<Msg>): (r: Cache)
    decreases |batch|
  {
    if |batch| == 0 then cache
    else CacheReactions(Remember(cache, batch[0]), batch[1..])
  }

  /** An id already in the cache keeps its entry. */
  lemma {:induction false} CacheReactionsKeeps(cache: Cache, batch: seq<Msg>)
    ensures var r := CacheReactions(cache, batch);
      forall id :: id in cache ==> id in r && r[id] == cache[id]
    decreases |batch|
  {
    if |batch| > 0 {
      CacheReactionsKeeps(Remember(cache, batch[0]), batch[1..]);
    }
  }

  /** The batch's ids are added to the cache, and nothing else. */
  lemma {:induction false} CacheReactionsKeys(cache: Cache, batch: seq<Msg>)
    ensures CacheReactions(cache, batch).Keys == cache.Keys + Ids(batch)
    decreases |batch|
  {
    if |batch| > 0 {
      CacheReactionsKeys(Remember(cache, batch[0]), batch[1..]);
      IdsCons(batch);
    }
  }

  /** An id seen for the first time gets the entry of the first message of
      the batch that carries it. */
  lemma {:induction false} CacheReactionsFirst(cache: Cache, batch: seq<Msg>)
    ensures var r := CacheReactions(cache, batch);
      forall i :: 0 <= i < |batch| && batch[i].id !in cache && FirstOccurrence(batch, i) ==>
        batch[i].id in r && r[batch[i].id] == Index(batch[i])
    decreases |batch|
  {
    if |batch| > 0 {
      var next := Remember(cache, batch[0]);
      CacheReactionsKeeps(next, batch[1..]);
      CacheReactionsFirst(next, batch[1..]);
      assert forall i :: 1 <= i < |batch| && FirstOccurrence(batch, i) ==> FirstOccurrence(batch[1..], i - 1);
    }
  }

  /** What indexing a batch does: an id already in the cache keeps its
      entry, the batch's ids are added, and an id seen for the first time
      gets the entry of the first message of the batch that carries it. */
  lemma CacheReactionsSpec(cache: Cache, batch: seq<Msg>)
    ensures var r := CacheReactions(cache, batch);
      forall id :: id in cache ==> id in r && r[id] == cache[id]
    ensures CacheReactions(cache, batch).Keys == cache.Keys + Ids(batch)
    ensures var r := CacheReactions(cache, batch);
      forall i :: 0 <= i < |batch| && batch[i].id !in cache && FirstOccurrence(batch, i) ==>
        r[batch[i].id] == Index(batch[i])
  {
    CacheReactionsKeeps(cache, batch);
    CacheReactionsKeys(cache, batch);
    CacheReactionsFirst(cache, batch);
  }

  /** Indexing `a` then `b` is indexing `a + b`. */
  lemma {:induction false} CacheReactionsConcat(cache: Cache, a: seq<Msg>, b: seq<Msg>)
    ensures CacheReactions(cache, a + b) == CacheReactions(CacheReactions(cache, a), b)
    decreases |a|
  {
    if |a| == 0 {
      assert a + b == b;
    } else {
      assert (a + b)[1..] == a[1..] + b;
      CacheReactionsConcat(Remember(cache, a[0]), a[1..], b);
    }
  }

  /** A batch whose ids are all cached changes nothing. */
  lemma {:induction false} CacheReactionsKnown(cache: Cache, batch: seq<Msg>)
    requires Ids(batch) <= cache.Keys
    ensures CacheReactions(cache, batch) == cache
    decreases |batch|
  {
    if |batch| > 0 {
      IdsCons(batch);
      CacheReactionsKnown(cache, batch[1..]);
    }
  }

  /** Memoization: indexing the same batch twice is indexing it once. */
  lemma CacheReactionsIdempotent(cache: Cache, batch: seq<Msg>)
    ensures CacheReactions(CacheReactions(cache, batch), batch) == CacheReactions(cache, batch)
  {
    CacheReactionsSpec(cache, batch);
    CacheReactionsKnown(CacheReactions(cache, batch), batch);
  }
}

=== FILE: listing.dfy ===
/**
 * The `messages` command: the qualifying messages' links, ranked from 1
 * in load order as "<rank>. <link>", sent twenty lines per message.
 */
module Listing {
  import opened Wrappers
  import opened Source
  import opened Indexer
  import opened SessionStore
  import opened Query
  import opened Decimal
  import opened Text

  /** Lines per sent message. */
  const ChunkSize: nat := 20

  /** A line of the listing, taken apart. */
  datatype Ranked = Ranked(rank: nat, link: string)

  /** The line for the message ranked `rank`. */
  function Line(rank: nat, link: string): (line: string) {
    Show(rank) + ". " + link
  }

  /** Reads a listing line back: the digits before the first dot, then a
      dot and a space, then the link. */
  function ParseLine(line: string): (r: Option<Ranked>)
  {
    var k := Find(line, '.', 0);
    if 0 < k && k + 1 < |line| && AllDigits(line[..k]) && line[k + 1] == ' '
    then Some(Ranked(Value(line[..k]), line[k + 2..]))
    else None
  }

  /** A rendered line reads back as the rank and link it was made from. */
  lemma LineRoundTrip(rank: nat, link: string)
    ensures ParseLine(Line(rank, link)) == Some(Ranked(rank, link))
  {
    var digits := Show(rank);
    ShowWellFormed(rank);
    ValueShow(rank);
    var line := Line(rank, link);
    assert forall j :: 0 <= j < |digits| ==> line[j] == digits[j];
    FindFirst(line, '.', |digits|);
    assert line[..|digits|] == digits;
    assert line[|digits| + 2..] == link;
  }

  /** The listing lines for messages already known to be cached: the
      `i`-th line carries rank `i + 1` and the cached link. */
  function RankedLines(ms: seq<Msg>, cache: Cache): (lines: seq<string>)
    requires forall i :: 0 <= i < |ms| ==> ms[i].id in cache
    ensures |lines| == |ms|
  {
    seq(|ms|, i requires 0 <= i < |ms| => Line(i + 1, cache[ms[i].id].link))
  }

  function Min(a: int, b: int): (m: int) {
    if a <= b then a else b
  }

  /** The bot's loop over `i = 0, 20, 40, …` below the length, each
      step taking `slice(i, i + 20)`. */
  function Chunks<T>(xs: seq<T>): (cs: seq<seq<T>>)
    decreases |xs|
  {
    if |xs| == 0 then []
    else if |xs| <= ChunkSize then [xs]
    else [xs[..ChunkSize]] + Chunks(xs[ChunkSize..])
  }

  /** There are as many chunks as twenties, rounded up. */
  lemma {:induction false} ChunkCount<T>(xs: seq<T>)
    ensures |Chunks(xs)| == (|xs| + ChunkSize - 1) / ChunkSize
    decreases |xs|
  {
    if |xs| > ChunkSize {
      ChunkCount(xs[ChunkSize..]);
    }
  }

  /** Chunk `k` holds positions `20 * k` up to `20 * (k + 1)`, cut at the
      end. */
  lemma {:induction false} ChunkAt<T>(xs: seq<T>)
    ensures forall k :: 0 <= k < |Chunks(xs)| ==>
      k * ChunkSize < |xs| &&
      Chunks(xs)[k] == xs[k * ChunkSize .. Min((k + 1) * ChunkSize, |xs|)]
    decreases |xs|
  {
    if |xs| > ChunkSize {
      var rest := xs[ChunkSize..];
      ChunkAt(rest);
      forall k | 1 <= k < |Chunks(xs)|
        ensures k * ChunkSize < |xs|
        ensures Chunks(xs)[k] == xs[k * ChunkSize .. Min((k + 1) * ChunkSize, |xs|)]
      {
        var lo := (k - 1) * ChunkSize;
        var hi := Min(k * ChunkSize, |rest|);
        assert lo + ChunkSize == k * ChunkSize;
        assert hi + ChunkSize == Min((k + 1) * ChunkSize, |xs|);
        assert Chunks(xs)[k] == Chunks(rest)[k - 1] == rest[lo..hi];
        DropSlice(xs, ChunkSize, lo, hi);
      }
    }
  }

  /** A slice of a suffix is a slice of the whole, shifted. */
  lemma DropSlice<T>(xs: seq<T>, n: nat, lo: nat, hi: nat)
    requires n <= |xs| && lo <= hi <= |xs| - n
    ensures xs[n..][lo..hi] == xs[n + lo .. n + hi]
  {
  }

  /** Every chunk holds one to twenty lines, and all but the last exactly
      twenty. */
  lemma ChunkSizes<T>(xs: seq<T>)
    ensures forall k :: 0 <= k < |Chunks(xs)| ==> 0 < |Chunks(xs)[k]| <= ChunkSize
    ensures forall k :: 0 <= k < |Chunks(xs)| - 1 ==> |Chunks(xs)[k]| == ChunkSize
    ensures |Chunks(xs)| == 0 <==> |xs| == 0
  {
    ChunkCount(xs);
    ChunkAt(xs);
  }

  function Flatten<T>(css: seq<seq<T>>): (xs: seq<T>)
    decreases |css|
  {
    if |css| == 0 then [] else css[0] + Flatten(css[1..])
  }

  /** The chunks, put back together, are the lines: nothing is dropped,
      repeated or reordered. */
  lemma {:induction false} FlattenChunks<T>(xs: seq<T>)
    ensures Flatten(Chunks(xs)) == xs
    decreases |xs|
  {
    if |xs| > ChunkSize {
      FlattenChunks(xs[ChunkSize..]);
      assert xs[..ChunkSize] + xs[ChunkSize..] == xs;
    }
  }

  /** The texts the listing sends: each chunk of lines, joined. */
  function Pages(lines: seq<string>): (texts: seq<string>)
  {
    var cs := Chunks(lines);
    seq(|cs|, k requires 0 <= k < |cs| => JoinLines(cs[k]))
  }

  /** The sending loop, one text per step of twenty. */
  method SendPages(lines: seq<string>) returns (texts: seq<string>)
    ensures texts == Pages(lines)
  {
    ChunkCount(lines);
    ChunkAt(lines);
    texts := [];
    var i := 0;
    while i < |lines|
      invariant i % ChunkSize == 0
      invariant i < |lines| ==> i / ChunkSize < |Chunks(lines)|
      invariant i >= |lines| ==> i / ChunkSize == |Chunks(lines)|
      invariant texts == Pages(lines)[..i / ChunkSize]
      decreases |lines| - i
    {
      var k := i / ChunkSize;
      assert k * ChunkSize == i && (k + 1) * ChunkSize == i + ChunkSize;
      var chunk := lines[i..Min(i + ChunkSize, |lines|)];
      assert chunk == Chunks(lines)[k];
      assert Pages(lines)[..k + 1] == Pages(lines)[..k] + [JoinLines(chunk)];
      texts := texts + [JoinLines(chunk)];
      i := i + ChunkSize;
    }
  }

  /** What the `messages` command answers when it gets that far. */
  datatype Reply =
    | NoneFound            // no loaded message reaches the threshold
    | Sent(texts: seq<string>)

  /** The `messages` command. Unlike `count` it does not check that a date
      is set: a non-empty load is all it asks for. */
  function ListAtLeast(s: Session, t: Threshold): (r: Result<Reply, Error>)
    ensures r == Err(NotLoaded) <==> |s.messages| == 0
    ensures r.Err? ==> r.error in {NotLoaded, MissingEntry}
  {
    if |s.messages| == 0 then Err(NotLoaded)
    else match Qualifying(s.messages, s.cache, t)
      case Err(e) => Err(e)
      case Ok(q) =>
        QualifyingMembers(s.messages, s.cache, t);
        assert forall i :: 0 <= i < |q| ==> q[i] in q;
        if |q| == 0 then Ok(NoneFound) else Ok(Sent(Pages(RankedLines(q, s.cache))))
  }

  /** Line `i` of the listing is line `i % 20` of chunk `i / 20`. */
  lemma ChunkPosition<T>(xs: seq<T>)
    ensures forall i :: 0 <= i < |xs| ==>
      i / ChunkSize < |Chunks(xs)| &&
      i % ChunkSize < |Chunks(xs)[i / ChunkSize]| &&
      Chunks(xs)[i / ChunkSize][i % ChunkSize] == xs[i]
  {
    var cs := Chunks(xs);
    ChunkCount(xs);
    ChunkAt(xs);
    forall i | 0 <= i < |xs|
      ensures i / ChunkSize < |cs|
      ensures i % ChunkSize < |cs[i / ChunkSize]|
      ensures cs[i / ChunkSize][i % ChunkSize] == xs[i]
    {
      var k := i / ChunkSize;
      assert k * ChunkSize + i % ChunkSize == i;
      assert (k + 1) * ChunkSize == k * ChunkSize + ChunkSize;
      assert k < |cs|;
      assert cs[k] == xs[k * ChunkSize .. Min((k + 1) * ChunkSize, |xs|)];
    }
  }

  /** Every chunk's text splits back into the chunk's lines. */
  lemma PagesRead(lines: seq<string>)
    requires forall i :: 0 <= i < |lines| ==> NoNewline(lines[i])
    ensures |Pages(lines)| == (|lines| + ChunkSize - 1) / ChunkSize
    ensures forall k :: 0 <= k < |Pages(lines)| ==>
      SplitLines(Pages(lines)[k]) == Chunks(lines)[k] && 0 < |Chunks(lines)[k]| <= ChunkSize
  {
    var cs := Chunks(lines);
    ChunkCount(lines);
    ChunkAt(lines);
    ChunkSizes(lines);
    forall k | 0 <= k < |cs|
      ensures SplitLines(Pages(lines)[k]) == cs[k]
    {
      var lo := k * ChunkSize;
      assert (k + 1) * ChunkSize == lo + ChunkSize;
      assert cs[k] == lines[lo .. Min(lo + ChunkSize, |lines|)];
      forall j | 0 <= j < |cs[k]|
        ensures NoNewline(cs[k][j])
      {
        assert cs[k][j] == lines[lo + j];
      }
      SplitJoin(cs[k]);
    }
  }

  /** A listing line holds a newline only where its link does. */
  lemma LineNoNewline(rank: nat, link: string)
    requires NoNewline(link)
    ensures NoNewline(Line(rank, link))
  {
    ShowWellFormed(rank);
    var line := Line(rank, link);
    forall i | 0 <= i < |line|
      ensures line[i] != Newline
    {
      if i < |Show(rank)| {
        assert IsDigit(line[i]);
      } else if i >= |Show(rank)| + 2 {
        assert line[i] == link[i - |Show(rank)| - 2];
      }
    }
  }

  /** Line `i` of the listing is the line for rank `i + 1` and the link of
      message `i`, reads back as those, and holds no newline. */
  lemma RankedLinesRead(ms: seq<Msg>, cache: Cache)
    requires forall i :: 0 <= i < |ms| ==>
      ms[i].id in cache && cache[ms[i].id].link == ms[i].url && NoNewline(ms[i].url)
    ensures forall i :: 0 <= i < |ms| ==>
      NoNewline(RankedLines(ms, cache)[i]) &&
      RankedLines(ms, cache)[i] == Line(i + 1, ms[i].url) &&
      ParseLine(RankedLines(ms, cache)[i]) == Some(Ranked(i + 1, ms[i].url))
  {
    forall i | 0 <= i < |ms|
      ensures NoNewline(RankedLines(ms, cache)[i])
      ensures ParseLine(RankedLines(ms, cache)[i]) == Some(Ranked(i + 1, ms[i].url))
    {
      LineNoNewline(i + 1, ms[i].url);
      LineRoundTrip(i + 1, ms[i].url);
    }
  }

  /** On a consistent session the qualifying messages are cached under
      their own links. */
  lemma ReactedCached(src: seq<Msg>, s: Session, t: Threshold)
    requires Consistent(src, s)
    ensures var q := Reacted(s.messages, t);
      forall i :: 0 <= i < |q| ==> q[i] in s.messages && q[i].id in s.cache && s.cache[q[i].id].link == q[i].url
  {
    var q := Reacted(s.messages, t);
    ReactedMembers(s.messages, t);
    forall i | 0 <= i < |q|
      ensures q[i] in s.messages && q[i].id in s.cache && s.cache[q[i].id].link == q[i].url
    {
      assert q[i] in q;
      var j :| 0 <= j < |s.messages| && s.messages[j] == q[i];
      assert s.messages[j].id in Ids(s.messages);
    }
  }

  /** The texts sent for a listing of numbered lines: as many as twenties
      of lines, text `k` holding lines `20 * k` up to `20 * (k + 1)` cut at
      the end, and line `i % 20` of text `i / 20` being exactly the line
      `"<i + 1>. <link of message i>"`, which reads back as that rank and
      link. */
  predicate Paged(texts: seq<string>, q: seq<Msg>) {
    && |texts| == (|q| + ChunkSize - 1) / ChunkSize
    && (forall k :: 0 <= k < |texts| ==> |SplitLines(texts[k])| == Min(|q| - k * ChunkSize, ChunkSize))
    && (forall i :: 0 <= i < |q| ==>
          i / ChunkSize < |texts| &&
          i % ChunkSize < |SplitLines(texts[i / ChunkSize])| &&
          SplitLines(texts[i / ChunkSize])[i % ChunkSize] == Line(i + 1, q[i].url) &&
          ParseLine(SplitLines(texts[i / ChunkSize])[i % ChunkSize]) == Some(Ranked(i + 1, q[i].url)))
  }

  /** The listing lines of `q`, sent, are paged as `Paged` says. */
  lemma PagesPaged(lines: seq<string>, q: seq<Msg>)
    requires |lines| == |q|
    requires forall i :: 0 <= i < |lines| ==> NoNewline(lines[i]) && lines[i] == Line(i + 1, q[i].url)
    ensures Paged(Pages(lines), q)
  {
    PagesRead(lines);
    ChunkPosition(lines);
    ChunkAt(lines);
    var cs := Chunks(lines);
    forall k | 0 <= k < |cs|
      ensures |cs[k]| == Min(|lines| - k * ChunkSize, ChunkSize)
    {
      var lo := k * ChunkSize;
      assert (k + 1) * ChunkSize == lo + ChunkSize;
      assert |cs[k]| == Min(lo + ChunkSize, |lines|) - lo;
    }
    forall i | 0 <= i < |q|
      ensures ParseLine(lines[i]) == Some(Ranked(i + 1, q[i].url))
    {
      LineRoundTrip(i + 1, q[i].url);
    }
  }

  /** On a consistent session with something loaded, the listing never
      fails: it reports none found exactly when no loaded message reaches
      the threshold, and otherwise sends one text per twenty qualifying
      messages. */
  lemma ListConsistent(src: seq<Msg>, s: Session, t: Threshold)
    requires Consistent(src, s) && |s.messages| > 0
    ensures ListAtLeast(s, t).Ok?
    ensures ListAtLeast(s, t).value == NoneFound <==> |Reacted(s.messages, t)| == 0
    ensures ListAtLeast(s, t).value.Sent? ==>
      |ListAtLeast(s, t).value.texts| == (|Reacted(s.messages, t)| + ChunkSize - 1) / ChunkSize
  {
    LoadedCached(src, s);
    QualifyingReacted(s.messages, s.cache, t);
    var q := Reacted(s.messages, t);
    if |q| > 0 {
      ReactedCached(src, s, t);
      ChunkCount(RankedLines(q, s.cache));
    }
  }

  /** When no loaded link holds a newline, as Discord's links never do,
      the texts sent read back as the listing: text `k` holds exactly the
      lines of chunk `k`, and line `i` of the whole listing reads back as
      rank `i + 1` and the link of the `i`-th qualifying message in load
      order. */
  lemma ListReadsBack(src: seq<Msg>, s: Session, t: Threshold)
    requires Consistent(src, s) && |s.messages| > 0
    requires forall i :: 0 <= i < |s.messages| ==> NoNewline(s.messages[i].url)
    ensures ListAtLeast(s, t).Ok?
    ensures ListAtLeast(s, t).value.Sent? ==> Paged(ListAtLeast(s, t).value.texts, Reacted(s.messages, t))
  {
    LoadedCached(src, s);
    QualifyingReacted(s.messages, s.cache, t);
    var q := Reacted(s.messages, t);
    if |q| > 0 {
      ReactedCached(src, s, t);
      forall i | 0 <= i < |q|
        ensures NoNewline(q[i].url)
      {
        var j :| 0 <= j < |s.messages| && s.messages[j] == q[i];
      }
      var lines := RankedLines(q, s.cache);
      RankedLinesRead(q, s.cache);
      PagesPaged(lines, q);
    }
  }
}

=== FILE: query.dfy ===
/**
 * The `count` command: how many loaded messages have a top reaction count
 * at or above a threshold, looked up through the reaction cache.
 */
module Query {
  import opened Wrappers
  import opened Source
  import opened Indexer
  import opened SessionStore

  /** The parsed threshold. `None` stands for NaN, which the integer parse
      yields for a missing or non-numeric argument: no count compares as at
      least NaN. */
  type Threshold = Option<int>

  predicate Reaches(count: int, t: Threshold) {
    t.Some? && count >= t.value
  }

  /** The loaded messages whose cached count reaches the threshold, in
      load order. A message without a cache entry makes the lookup fail,
      whatever its position, as the bot's filter throws on it. */
  function Qualifying(ms: seq<Msg>, cache: Cache, t: Threshold): (r: Result<seq<Msg>, Error>)
    ensures r.Err? ==> r.error == MissingEntry
    ensures r.Ok? ==> |r.value| <= |ms|
    decreases |ms|
  {
    if |ms| == 0 then Ok([])
    else if ms[0].id !in cache then Err(MissingEntry)
    else match Qualifying(ms[1..], cache, t)
      case Err(e) => Err(e)
      case Ok(rest) => Ok(if Reaches(cache[ms[0].id].count, t) then [ms[0]] + rest else rest)
  }

  /** The lookup succeeds exactly when every loaded id is cached. */
  lemma {:induction false} QualifyingOk(ms: seq<Msg>, cache: Cache, t: Threshold)
    ensures Qualifying(ms, cache, t).Ok? <==> Ids(ms) <= cache.Keys
    decreases |ms|
  {
    if |ms| > 0 {
      IdsCons(ms);
      QualifyingOk(ms[1..], cache, t);
    }
  }

  /** A successful lookup keeps exactly the messages whose cached count
      reaches the threshold. */
  lemma {:induction false} QualifyingMembers(ms: seq<Msg>, cache: Cache, t: Threshold)
    requires Qualifying(ms, cache, t).Ok?
    ensures var q := Qualifying(ms, cache, t).value;
      forall m :: m in q <==> m in ms && m.id in cache && Reaches(cache[m.id].count, t)
    decreases |ms|
  {
    if |ms| > 0 {
      QualifyingMembers(ms[1..], cache, t);
      assert forall m :: m in ms <==> m == ms[0] || m in ms[1..];
    }
  }

  /** Reference definition that does not consult the cache: the messages
      whose own largest reaction count reaches the threshold. */
  function Reacted(ms: seq<Msg>, t: Threshold): (r: seq<Msg>)
    decreases |ms|
  {
    if |ms| == 0 then []
    else (if Reaches(Peak(ms[0].reactions), t) then [ms[0]] else []) + Reacted(ms[1..], t)
  }

  /** The reference filter keeps exactly the messages whose largest
      reaction count reaches the threshold. */
  lemma {:induction false} ReactedMembers(ms: seq<Msg>, t: Threshold)
    ensures forall m :: m in Reacted(ms, t) <==> m in ms && Reaches(Peak(m.reactions), t)
    decreases |ms|
  {
    if |ms| > 0 {
      ReactedMembers(ms[1..], t);
      assert forall m :: m in ms <==> m == ms[0] || m in ms[1..];
    }
  }

  /** Where every message is cached with the entry the indexer computed
      for it, the lookup through the cache is the reference filter. */
  lemma {:induction false} QualifyingReacted(ms: seq<Msg>, cache: Cache, t: Threshold)
    requires forall i :: 0 <= i < |ms| ==> ms[i].id in cache && cache[ms[i].id] == Index(ms[i])
    ensures Qualifying(ms, cache, t) == Ok(Reacted(ms, t))
    decreases |ms|
  {
    if |ms| > 0 {
      assert forall i :: 1 <= i < |ms| ==> ms[1..][i - 1] == ms[i];
      QualifyingReacted(ms[1..], cache, t);
      var rest := Reacted(ms[1..], t);
      assert cache[ms[0].id].count == Peak(ms[0].reactions);
      if !Reaches(Peak(ms[0].reactions), t) {
        assert Reacted(ms, t) == [] + rest == rest;
      }
    }
  }

  /** A message qualifies for threshold `v` exactly when `v` is at most 0
      or one of its reactions has at least `v` users. */
  lemma ReachesPeak(reactions: seq<nat>, v: int)
    ensures Reaches(Peak(reactions), Some(v)) <==>
      v <= 0 || exists k :: 0 <= k < |reactions| && reactions[k] >= v
  {
    PeakIsMax(reactions);
    if Peak(reactions) >= v && v > 0 {
      var k :| 0 <= k < |reactions| && reactions[k] == Peak(reactions);
    }
  }

  /** Raising the threshold never admits more messages. */
  lemma {:induction false} ReactedMonotone(ms: seq<Msg>, lo: int, hi: int)
    requires lo <= hi
    ensures |Reacted(ms, Some(hi))| <= |Reacted(ms, Some(lo))|
    decreases |ms|
  {
    if |ms| > 0 {
      ReactedMonotone(ms[1..], lo, hi);
    }
  }

  /** A threshold of at most 0 admits every message; NaN admits none. */
  lemma {:induction false} ReactedExtremes(ms: seq<Msg>, v: int)
    requires v <= 0
    ensures Reacted(ms, Some(v)) == ms
    ensures Reacted(ms, None) == []
    decreases |ms|
  {
    if |ms| > 0 {
      ReactedExtremes(ms[1..], v);
      assert [ms[0]] + ms[1..] == ms;
    }
  }

  /** The `count` command: it needs a date, then a non-empty load, and
      answers with the number of qualifying messages. */
  function CountAtLeast(s: Session, t: Threshold): (r: Result<nat, Error>)
    ensures r == Err(DateNotSet) <==> s.cutoff.None?
    ensures r == Err(NotLoaded) <==> s.cutoff.Some? && |s.messages| == 0
    ensures r.Ok? ==> r.value <= |s.messages|
  {
    if s.cutoff.None? then Err(DateNotSet)
    else if |s.messages| == 0 then Err(NotLoaded)
    else match Qualifying(s.messages, s.cache, t)
      case Err(e) => Err(e)
      case Ok(q) => Ok(|q|)
  }

  /** On a consistent session the count never fails on a missing entry:
      it answers exactly when something is loaded, and the answer is the
      number of loaded messages with a reaction count reaching the
      threshold. The date check can only fire when nothing is loaded. */
  lemma CountConsistent(src: seq<Msg>, s: Session, t: Threshold)
    requires Consistent(src, s)
    ensures CountAtLeast(s, t).Ok? <==> |s.messages| > 0
    ensures CountAtLeast(s, t) == Err(DateNotSet) ==> |s.messages| == 0
    ensures |s.messages| > 0 ==> CountAtLeast(s, t) == Ok(|Reacted(s.messages, t)|)
  {
    LoadedCached(src, s);
    QualifyingReacted(s.messages, s.cache, t);
  }

  /** With something loaded, a threshold of at most 0 counts every loaded
      message. */
  lemma CountAll(src: seq<Msg>, s: Session, v: int)
    requires Consistent(src, s) && |s.messages| > 0 && v <= 0
    ensures CountAtLeast(s, Some(v)) == Ok(|s.messages|)
  {
    CountConsistent(src, s, Some(v));
    ReactedExtremes(s.messages, v);
  }

  /** On a consistent session every loaded message is cached. */
  lemma LoadedCached(src: seq<Msg>, s: Session)
    requires Consistent(src, s)
    ensures forall i :: 0 <= i < |s.messages| ==> s.messages[i].id in s.cache
  {
  }
}

=== FILE: retriever.dfy ===
/**
 * Backward cursor pagination: the `load` command.
 *
 * Each round fetches the page below the cursor, appends the page's messages
 * newer than the cutoff, indexes them, moves the cursor to the page's oldest
 * message, and stops on an empty page or once that oldest message is at or
 * before the cutoff.
 */
module Retriever {
  import opened Wrappers
  import opened Source
  import opened Indexer
  import opened SessionStore

  /** The messages of `ms` created strictly after `cutoff`, in order. */
  function After(ms: seq<Msg>, cutoff: int): (r: seq<Msg>)
    ensures |r| <= |ms|
    decreases |ms|
  {
    if |ms| == 0 then []
    else (if ms[0].ts > cutoff then [ms[0]] else []) + After(ms[1..], cutoff)
  }

  /** A message passes the filter exactly when it is in the input and was
      created after the cutoff. */
  lemma {:induction false} AfterMembers(ms: seq<Msg>, cutoff: int)
    ensures forall m :: m in After(ms, cutoff) <==> m in ms && m.ts > cutoff
    decreases |ms|
  {
    if |ms| > 0 {
      AfterMembers(ms[1..], cutoff);
      assert forall m :: m in ms <==> m == ms[0] || m in ms[1..];
    }
  }

  /** Filtering keeps order: it distributes over concatenation. */
  lemma {:induction false} AfterConcat(a: seq<Msg>, b: seq<Msg>, cutoff: int)
    ensures After(a + b, cutoff) == After(a, cutoff) + After(b, cutoff)
    decreases |a|
  {
    if |a| == 0 {
      assert a + b == b;
    } else {
      assert (a + b)[1..] == a[1..] + b;
      AfterConcat(a[1..], b, cutoff);
    }
  }

  /** Filtering a sequence with unique ids gives unique ids. */
  lemma {:induction false} AfterUnique(ms: seq<Msg>, cutoff: int)
    requires UniqueIds(ms)
    ensures UniqueIds(After(ms, cutoff))
    decreases |ms|
  {
    if |ms| > 0 {
      UniqueIdsUncons(ms);
      AfterUnique(ms[1..], cutoff);
      if ms[0].ts > cutoff {
        var rest := After(ms[1..], cutoff);
        AfterMembers(ms[1..], cutoff);
        forall i | 0 <= i < |rest|
          ensures rest[i].id != ms[0].id
        {
          assert rest[i] in ms[1..];
          var k :| 0 <= k < |ms[1..]| && ms[1..][k] == rest[i];
          assert ms[1..][k].id in Ids(ms[1..]);
        }
        assert ms[0].id !in Ids(rest);
        UniqueIdsCons(ms[0], rest);
        assert After(ms, cutoff) == [ms[0]] + rest;
      } else {
        assert After(ms, cutoff) == After(ms[1..], cutoff);
      }
    }
  }

  /** The messages at positions `i` up to `j` of the history created after
      `cutoff`, in order. This is `After(src[i..j], cutoff)`, as
      `BetweenIsAfter` shows; it is defined on positions so that the loop
      invariants speak of no slices. */
  function Between(src: seq<Msg>, i: nat, j: nat, cutoff: int): (r: seq<Msg>)
    requires i <= j <= |src|
    decreases j - i
  {
    if i == j then []
    else (if src[i].ts > cutoff then [src[i]] else []) + Between(src, i + 1, j, cutoff)
  }

  /** Reading positions `i` up to `j` keeps what filtering that stretch of
      the history keeps. */
  lemma {:induction false} BetweenIsAfter(src: seq<Msg>, i: nat, j: nat, cutoff: int)
    requires i <= j <= |src|
    ensures Between(src, i, j, cutoff) == After(src[i..j], cutoff)
    decreases j - i
  {
    if i < j {
      BetweenIsAfter(src, i + 1, j, cutoff);
      assert src[i..j][1..] == src[i + 1..j];
    }
  }

  /** Reading up to `k` and then on to `j` keeps what reading up to `j`
      at once keeps. */
  lemma {:induction false} BetweenSplit(src: seq<Msg>, i: nat, k: nat, j: nat, cutoff: int)
    requires i <= k <= j <= |src|
    ensures Between(src, i, j, cutoff) == Between(src, i, k, cutoff) + Between(src, k, j, cutoff)
    decreases k - i
  {
    if i < k {
      BetweenSplit(src, i + 1, k, j, cutoff);
      var head := if src[i].ts > cutoff then [src[i]] else [];
      AppendAssoc(head, Between(src, i + 1, k, cutoff), Between(src, k, j, cutoff));
    }
  }

  /** A page that ends at `e`, read from `from` on, ended above the cutoff. */
  predicate PageEndAbove(src: seq<Msg>, from: nat, e: nat, cutoff: int)
    requires from < e <= |src|
  {
    (e - from) % PageLimit == 0 ==> src[e - 1].ts > cutoff
  }

  /** Where the paging loop leaves the cursor when it starts at position
      `p`: it reads whole pages of `PageLimit` messages and stops after the
      first page whose oldest message is at or before the cutoff, or at the
      bottom of the history. */
  function StopAt(src: seq<Msg>, cutoff: int, p: nat): (q: nat)
    requires p <= |src|
    ensures p <= q <= |src|
    ensures p < |src| ==> p < q
    decreases |src| - p
  {
    var end := if p + PageLimit <= |src| then p + PageLimit else |src|;
    if end == p then p
    else if src[end - 1].ts <= cutoff then end
    else StopAt(src, cutoff, end)
  }

  /** Where the loop stops short of the bottom, it does so after whole
      pages and on a message at or before the cutoff; every earlier page it
      read ended on a message after the cutoff. */
  lemma {:induction false} StopAtStops(src: seq<Msg>, cutoff: int, p: nat)
    requires p <= |src|
    ensures var q := StopAt(src, cutoff, p);
      q < |src| ==> p < q && (q - p) % PageLimit == 0 && src[q - 1].ts <= cutoff
    ensures var q := StopAt(src, cutoff, p);
      forall e :: p < e < q ==> PageEndAbove(src, p, e, cutoff)
    decreases |src| - p
  {
    var end := if p + PageLimit <= |src| then p + PageLimit else |src|;
    if end != p && src[end - 1].ts > cutoff {
      StopAtStops(src, cutoff, end);
      var q := StopAt(src, cutoff, end);
      assert forall e :: end < e < q ==> PageEndAbove(src, p, e, cutoff) == PageEndAbove(src, end, e, cutoff);
    }
  }

  /** The session a load with cutoff `cutoff` produces, stated on the
      history as a whole: the messages newer than the cutoff between the
      cursor and the stopping point are appended and indexed, and the cursor
      moves to the last message read. */
  function LoadWindow(src: seq<Msg>, cutoff: int, s: Session): (r: Session)
  {
    var p0 := Position(src, s.cursor);
    var q := StopAt(src, cutoff, p0);
    var kept := Between(src, p0, q, cutoff);
    Session(s.messages + kept,
            CacheReactions(s.cache, kept),
            if q == p0 then s.cursor else Some(src[q - 1].id),
            s.cutoff)
  }

  /** The `load` command. Without a cutoff the bot fails as soon as it
      filters a non-empty page, before changing anything; an empty first
      page ends the loop before the cutoff is ever read. */
  function Load(src: seq<Msg>, s: Session): (r: Result<Session, Error>)
    ensures s.cutoff.None? ==> (r.Ok? <==> Position(src, s.cursor) == |src|)
    ensures s.cutoff.None? && r.Ok? ==> r.value == s
    ensures s.cutoff.Some? ==> r.Ok? && r.value.cutoff == s.cutoff
    ensures r.Err? ==> r.error == DateNotSet
  {
    match s.cutoff
    case None => if |Fetch(src, s.cursor)| == 0 then Ok(s) else Err(DateNotSet)
    case Some(c) => Ok(LoadWindow(src, c, s))
  }

  /** The `load` command as the bot runs it. Without a cutoff the
      first non-empty page makes the filter fail; an empty first page ends
      the loop before the cutoff is read. */
  method LoadMessages(src: seq<Msg>, s: Session) returns (r: Result<Session, Error>)
    requires UniqueIds(src)
    ensures r == Load(src, s)
  {
    if s.cutoff.None? {
      var fetched := Fetch(src, s.cursor);
      if |fetched| == 0 {
        return Ok(s);
      }
      return Err(DateNotSet);
    }
    var loaded := FetchPages(src, s, s.cutoff.value);
    r := Ok(loaded);
  }

  /** The bot's paging loop with the cutoff set. */
  method FetchPages(src: seq<Msg>, s: Session, cutoff: int) returns (r: Session)
    requires UniqueIds(src)
    requires s.cutoff == Some(cutoff)
    ensures r == LoadWindow(src, cutoff, s)
  {
    var messages := s.messages;
    var cache := s.cache;
    var cursor := s.cursor;
    var keepFetching := true;
    ghost var p0 := Position(src, s.cursor);
    ghost var pos := p0;
    ghost var window: seq<Msg> := [];
    while keepFetching
      invariant Placed(src, s, p0, pos, cursor)
      invariant Kept(src, s, cutoff, p0, pos, window, messages, cache)
      invariant keepFetching ==> StopAt(src, cutoff, pos) == StopAt(src, cutoff, p0)
      invariant !keepFetching ==> pos == StopAt(src, cutoff, p0)
      decreases |src| - pos, keepFetching
    {
      messages, cache, cursor, keepFetching, pos, window :=
        FetchRound(src, s, cutoff, p0, pos, window, messages, cache, cursor);
    }
    Finish(src, s, cutoff, p0, pos, window, messages, cache, cursor);
    r := Session(messages, cache, cursor, s.cutoff);
  }

  /** One round of the paging loop: fetch the page below the cursor; stop
      on an empty page; otherwise append and index the messages after the
      cutoff, move the cursor to the page's oldest message, and go on only
      when that message is after the cutoff. The round keeps the loop's
      invariant, and stops exactly where `StopAt` does. */
  method FetchRound(src: seq<Msg>, s: Session, cutoff: int, ghost p0: nat, ghost pos: nat,
                    ghost window: seq<Msg>, messages: seq<Msg>, cache: Cache, cursor: Option<Id>)
    returns (messages': seq<Msg>, cache': Cache, cursor': Option<Id>, more: bool,
             ghost pos': nat, ghost window': seq<Msg>)
    requires UniqueIds(src)
    requires Placed(src, s, p0, pos, cursor)
    requires Kept(src, s, cutoff, p0, pos, window, messages, cache)
    requires StopAt(src, cutoff, pos) == StopAt(src, cutoff, p0)
    ensures pos <= pos' <= |src| && (more ==> pos < pos')
    ensures Placed(src, s, p0, pos', cursor')
    ensures Kept(src, s, cutoff, p0, pos', window', messages', cache')
    ensures more ==> StopAt(src, cutoff, pos') == StopAt(src, cutoff, p0)
    ensures !more ==> pos' == StopAt(src, cutoff, p0)
    ensures |messages| <= |messages'| && messages'[..|messages|] == messages
    ensures |Fetch(src, cursor)| == 0 ==> !more && messages' == messages && cache' == cache && cursor' == cursor
  {
    var fetched := Fetch(src, cursor);
    if |fetched| == 0 {
      StopAtBottom(src, cutoff, pos, cursor);
      return messages, cache, cursor, false, pos, window;
    }
    Turn(src, s, cutoff, p0, pos, cursor, fetched);
    Extend(src, s, cutoff, p0, pos, pos + |fetched|, window, messages, cache, fetched);
    var filtered := After(fetched, cutoff);
    messages' := messages + filtered;
    assert messages'[..|messages|] == messages;
    cache' := CacheReactions(cache, filtered);
    cursor' := Some(fetched[|fetched| - 1].id);
    pos' := pos + |fetched|;
    window' := window + filtered;
    more := true;
    if fetched[|fetched| - 1].ts <= cutoff {
      more := false;
    }
  }

  /** Where the loop's cursor stands after reading the history from `p0`
      up to `pos`: just above `pos`, or where the session had it while
      nothing has been read. */
  predicate Placed(src: seq<Msg>, s: Session, p0: nat, pos: nat, cursor: Option<Id>)
  {
    && p0 == Position(src, s.cursor)
    && p0 <= pos == Position(src, cursor)
    && cursor == if pos == p0 then s.cursor else Some(src[pos - 1].id)
  }

  /** What the loop has kept after reading the history from `p0` up to
      `pos`: `window` holds what passed the filter, and the messages and the
      cache hold it on top of what the session had. */
  predicate Kept(src: seq<Msg>, s: Session, cutoff: int, p0: nat, pos: nat, window: seq<Msg>,
                 messages: seq<Msg>, cache: Cache)
    requires p0 <= pos <= |src|
  {
    && window == Between(src, p0, pos, cutoff)
    && messages == s.messages + window
    && cache == CacheReactions(s.cache, window)
  }

  /** One round moves the cursor: the page read is the stretch of history
      just below the cursor, the cursor then names its oldest message, and
      the round decides the stop exactly as `StopAt` does. */
  lemma Turn(src: seq<Msg>, s: Session, cutoff: int, p0: nat, pos: nat, cursor: Option<Id>, page: seq<Msg>)
    requires UniqueIds(src)
    requires Placed(src, s, p0, pos, cursor)
    requires page == Fetch(src, cursor) && 0 < |page|
    requires StopAt(src, cutoff, pos) == StopAt(src, cutoff, p0)
    ensures pos + |page| <= |src|
    ensures Placed(src, s, p0, pos + |page|, Some(page[|page| - 1].id))
    ensures page[|page| - 1].ts <= cutoff ==> StopAt(src, cutoff, p0) == pos + |page|
    ensures page[|page| - 1].ts > cutoff ==> StopAt(src, cutoff, pos + |page|) == StopAt(src, cutoff, p0)
  {
    var p := pos + |page|;
    FetchedStretch(src, cursor);
    assert page[|page| - 1] == src[p - 1];
    assert p == if pos + PageLimit <= |src| then pos + PageLimit else |src|;
    PositionAfter(src, p - 1);
    PageStop(src, cutoff, p0, pos, p);
  }

  /** The page read from `pos` ends at `end`; the loop stops there exactly
      when the page's oldest message is at or before the cutoff, and
      otherwise goes on towards the same stopping point. */
  lemma PageStop(src: seq<Msg>, cutoff: int, p0: nat, pos: nat, end: nat)
    requires p0 <= pos < |src|
    requires end == if pos + PageLimit <= |src| then pos + PageLimit else |src|
    requires StopAt(src, cutoff, pos) == StopAt(src, cutoff, p0)
    ensures src[end - 1].ts <= cutoff ==> StopAt(src, cutoff, p0) == end
    ensures src[end - 1].ts > cutoff ==> StopAt(src, cutoff, end) == StopAt(src, cutoff, p0)
  {
    StopAtStep(src, cutoff, pos);
  }

  /** Keeping the messages of the stretch `pos..end` after the cutoff on
      top of what reading `p0..pos` kept is keeping what reading `p0..end`
      keeps. */
  lemma Extend(src: seq<Msg>, s: Session, cutoff: int, p0: nat, pos: nat, end: nat, window: seq<Msg>,
               messages: seq<Msg>, cache: Cache, page: seq<Msg>)
    requires p0 <= pos <= end <= |src| && page == src[pos..end]
    requires Kept(src, s, cutoff, p0, pos, window, messages, cache)
    ensures Kept(src, s, cutoff, p0, end, window + After(page, cutoff),
                 messages + After(page, cutoff), CacheReactions(cache, After(page, cutoff)))
  {
    var kept := After(page, cutoff);
    WindowStep(src, cutoff, p0, pos, end, window, page);
    AppendAssoc(s.messages, window, kept);
    CacheReactionsConcat(s.cache, window, kept);
  }

  /** Reading the stretch from `pos` to `end` extends the window by what
      the filter keeps of it. */
  lemma WindowStep(src: seq<Msg>, cutoff: int, p0: nat, pos: nat, end: nat, window: seq<Msg>, page: seq<Msg>)
    requires p0 <= pos <= end <= |src| && page == src[pos..end]
    requires window == Between(src, p0, pos, cutoff)
    ensures window + After(page, cutoff) == Between(src, p0, end, cutoff)
  {
    BetweenSplit(src, p0, pos, end, cutoff);
    BetweenIsAfter(src, pos, end, cutoff);
  }

  /** An empty page means the cursor is at the bottom, where the loop
      stops. */
  lemma StopAtBottom(src: seq<Msg>, cutoff: int, pos: nat, cursor: Option<Id>)
    requires pos == Position(src, cursor)
    requires |Fetch(src, cursor)| == 0
    ensures StopAt(src, cutoff, pos) == pos
  {
  }

  /** Once the loop has read up to where `StopAt` says, its state is the
      session `LoadWindow` describes. */
  lemma Finish(src: seq<Msg>, s: Session, cutoff: int, p0: nat, pos: nat, window: seq<Msg>,
               messages: seq<Msg>, cache: Cache, cursor: Option<Id>)
    requires s.cutoff == Some(cutoff)
    requires Placed(src, s, p0, pos, cursor)
    requires Kept(src, s, cutoff, p0, pos, window, messages, cache)
    requires pos == StopAt(src, cutoff, p0)
    ensures LoadWindow(src, cutoff, s) == Session(messages, cache, cursor, s.cutoff)
  {
  }

  /** A non-empty page is the stretch of history of its length just below
      the cursor, a full page unless it reaches the bottom. */
  lemma FetchedStretch(src: seq<Msg>, cursor: Option<Id>)
    requires Position(src, cursor) < |src|
    ensures var p := Position(src, cursor); var page := Fetch(src, cursor);
      && 0 < |page|
      && page == src[p..p + |page|]
      && page[|page| - 1] == src[p + |page| - 1]
      && p + |page| == if p + PageLimit <= |src| then p + PageLimit else |src|
  {
  }

  /** One page of `StopAt`: the page read from `p` ends at `p + PageLimit`
      or at the bottom, and the loop stops there exactly when that page's
      oldest message is at or before the cutoff. */
  lemma StopAtStep(src: seq<Msg>, cutoff: int, p: nat)
    requires p < |src|
    ensures var end := if p + PageLimit <= |src| then p + PageLimit else |src|;
      StopAt(src, cutoff, p) == if src[end - 1].ts <= cutoff then end else StopAt(src, cutoff, end)
  {
  }

  /** Nothing in a stretch of messages all at or before the cutoff passes
      the filter. */
  lemma {:induction false} AfterNone(ms: seq<Msg>, cutoff: int)
    requires forall i :: 0 <= i < |ms| ==> ms[i].ts <= cutoff
    ensures After(ms, cutoff) == []
    decreases |ms|
  {
    if |ms| > 0 {
      AfterNone(ms[1..], cutoff);
    }
  }

  /** On a newest-first history, no message after the cutoff is left
      below the position where the loop stops. */
  lemma NothingLeftPastCutoff(src: seq<Msg>, cutoff: int, p0: nat)
    requires Descending(src) && p0 <= |src|
    ensures After(src[StopAt(src, cutoff, p0)..], cutoff) == []
  {
    var q := StopAt(src, cutoff, p0);
    StopAtStops(src, cutoff, p0);
    BetweenNone(src, q, |src|, cutoff);
    BetweenIsAfter(src, q, |src|, cutoff);
    assert src[q..|src|] == src[q..];
  }

  /** What a read of positions `i` up to `j` keeps: exactly the messages
      of that stretch created after the cutoff. */
  lemma BetweenMembers(src: seq<Msg>, i: nat, j: nat, cutoff: int)
    requires i <= j <= |src|
    ensures forall m :: m in Between(src, i, j, cutoff) <==> m in src[i..j] && m.ts > cutoff
  {
    BetweenIsAfter(src, i, j, cutoff);
    AfterMembers(src[i..j], cutoff);
  }

  /** A read of a history with unique ids keeps unique ids. */
  lemma BetweenUnique(src: seq<Msg>, i: nat, j: nat, cutoff: int)
    requires UniqueIds(src) && i <= j <= |src|
    ensures UniqueIds(Between(src, i, j, cutoff))
  {
    BetweenIsAfter(src, i, j, cutoff);
    UniqueIdsSlice(src, i, j);
    AfterUnique(src[i..j], cutoff);
  }

  /** A load never moves the cursor back up the history. */
  lemma LoadNeverRewinds(src: seq<Msg>, s: Session)
    requires UniqueIds(src)
    requires Load(src, s).Ok?
    ensures Position(src, s.cursor) <= Position(src, Load(src, s).value.cursor)
  {
    if s.cutoff.Some? {
      LoadWindowCursor(src, s.cutoff.value, s);
    }
  }

  /** After a load the cursor stands where `StopAt` says the loop stopped. */
  lemma LoadWindowCursor(src: seq<Msg>, cutoff: int, s: Session)
    requires UniqueIds(src)
    ensures Position(src, LoadWindow(src, cutoff, s).cursor) == StopAt(src, cutoff, Position(src, s.cursor))
  {
    var p0 := Position(src, s.cursor);
    var q := StopAt(src, cutoff, p0);
    var c := LoadWindow(src, cutoff, s).cursor;
    assert c == if q == p0 then s.cursor else Some(src[q - 1].id);
    if q != p0 {
      PositionAfter(src, q - 1);
    }
  }

  /** The messages a load appends are all read from `src[p0..q]`. */
  lemma KeptRead(src: seq<Msg>, p0: nat, q: nat, cutoff: int)
    requires p0 <= q <= |src|
    ensures forall k | 0 <= k < |Between(src, p0, q, cutoff)| ::
      Between(src, p0, q, cutoff)[k] in src[p0..q]
  {
    var kept := Between(src, p0, q, cutoff);
    BetweenMembers(src, p0, q, cutoff);
    forall k | 0 <= k < |kept|
      ensures kept[k] in src[p0..q]
    {
      assert kept[k] in kept;
    }
  }

  /** Old messages from before `p0` and new ones from `p0` up to `q` all
      lie before `q`. */
  lemma ReadBefore(src: seq<Msg>, p0: nat, q: nat, before: seq<Msg>, kept: seq<Msg>)
    requires p0 <= q <= |src|
    requires forall i | 0 <= i < |before| :: before[i] in src[..p0]
    requires forall k | 0 <= k < |kept| :: kept[k] in src[p0..q]
    ensures forall i | 0 <= i < |before + kept| :: (before + kept)[i] in src[..q]
  {
  }

  /** Old and new messages together still have unique ids. */
  lemma ReadUnique(src: seq<Msg>, p0: nat, q: nat, before: seq<Msg>, kept: seq<Msg>)
    requires UniqueIds(src) && p0 <= q <= |src|
    requires UniqueIds(before) && UniqueIds(kept)
    requires forall i | 0 <= i < |before| :: before[i] in src[..p0]
    requires forall k | 0 <= k < |kept| :: kept[k] in src[p0..q]
    ensures Ids(before) !! Ids(kept) && UniqueIds(before + kept)
  {
    forall k | 0 <= k < |kept|
      ensures kept[k] in src[p0..]
    {
      assert kept[k] in src[p0..q];
      var t :| 0 <= t < q - p0 && src[p0..q][t] == kept[k];
      assert src[p0..][t] == kept[k];
    }
    StretchesDisjoint(src, p0, before, kept);
    UniqueIdsConcat(before, kept);
  }

  /** Caching a batch whose ids are new to the cache records every message
      of the batch, and leaves the old entries as they were. */
  lemma CacheFresh(cache: Cache, before: seq<Msg>, kept: seq<Msg>)
    requires cache.Keys == Ids(before)
    requires forall i | 0 <= i < |before| :: cache[before[i].id] == Index(before[i])
    requires UniqueIds(kept) && Ids(before) !! Ids(kept)
    ensures CacheReactions(cache, kept).Keys == Ids(before + kept)
    ensures forall i | 0 <= i < |before + kept| ::
      CacheReactions(cache, kept)[(before + kept)[i].id] == Index((before + kept)[i])
  {
    var all := before + kept;
    var r := CacheReactions(cache, kept);
    CacheReactionsSpec(cache, kept);
    IdsConcat(before, kept);
    forall i | 0 <= i < |all|
      ensures r[all[i].id] == Index(all[i])
    {
      if i < |before| {
        assert all[i] == before[i];
        assert before[i].id in Ids(before);
      } else {
        var k := i - |before|;
        assert all[i] == kept[k];
        UniqueFirstOccurrence(kept, k);
        assert kept[k].id in Ids(kept);
      }
    }
  }

  /** A load keeps the session a faithful index of what has been read. */
  lemma LoadWindowConsistent(src: seq<Msg>, cutoff: int, s: Session)
    requires UniqueIds(src)
    requires Consistent(src, s) && s.cutoff == Some(cutoff)
    ensures Consistent(src, LoadWindow(src, cutoff, s))
  {
    var p0 := Position(src, s.cursor);
    var q := StopAt(src, cutoff, p0);
    var kept := Between(src, p0, q, cutoff);
    LoadWindowCursor(src, cutoff, s);
    KeptRead(src, p0, q, cutoff);
    BetweenUnique(src, p0, q, cutoff);
    ReadBefore(src, p0, q, s.messages, kept);
    ReadUnique(src, p0, q, s.messages, kept);
    CacheFresh(s.cache, s.messages, kept);
  }

  /** Every successful load keeps the session consistent. */
  lemma LoadConsistent(src: seq<Msg>, s: Session)
    requires UniqueIds(src) && Consistent(src, s)
    requires Load(src, s).Ok?
    ensures Consistent(src, Load(src, s).value)
  {
    if s.cutoff.Some? {
      LoadWindowConsistent(src, s.cutoff.value, s);
    }
  }

  /** On a newest-first history a load misses nothing: it appends exactly
      the messages below the cursor that are newer than the cutoff, in the
      order the history lists them. */
  lemma LoadComplete(src: seq<Msg>, cutoff: int, s: Session)
    requires Descending(src) && s.cutoff == Some(cutoff)
    ensures Load(src, s).Ok?
    ensures Load(src, s).value.messages == s.messages + After(src[Position(src, s.cursor)..], cutoff)
  {
    var p0 := Position(src, s.cursor);
    var q := StopAt(src, cutoff, p0);
    assert q < |src| ==> 0 < q && src[q - 1].ts <= cutoff by {
      StopAtStops(src, cutoff, p0);
    }
    BetweenNone(src, q, |src|, cutoff);
    BetweenSplit(src, p0, q, |src|, cutoff);
    var kept := Between(src, p0, q, cutoff);
    assert Between(src, p0, |src|, cutoff) == kept by {
      assert kept + [] == kept;
    }
    BetweenIsAfter(src, p0, |src|, cutoff);
    assert src[p0..|src|] == src[p0..];
    assert Load(src, s) == Ok(LoadWindow(src, cutoff, s));
  }

  /** Below a message at or before the cutoff, a newest-first history keeps
      nothing. */
  lemma BetweenNone(src: seq<Msg>, p: nat, j: nat, cutoff: int)
    requires Descending(src) && p <= j <= |src|
    requires p < |src| ==> 0 < p && src[p - 1].ts <= cutoff
    ensures Between(src, p, j, cutoff) == []
  {
    BetweenIsAfter(src, p, j, cutoff);
    if p < |src| {
      forall i | 0 <= i < |src[p..j]|
        ensures src[p..j][i].ts <= src[p - 1].ts
      {
        assert NoNewer(src, p - 1, p + i);
      }
    }
    AfterNone(src[p..j], cutoff);
  }

  /** Loading again straight after a load appends nothing and caches
      nothing new, and the cursor never moves back up the history. */
  lemma ReloadAppendsNothing(src: seq<Msg>, s: Session)
    requires UniqueIds(src) && Descending(src)
    requires Load(src, s).Ok?
    ensures var r := Load(src, s).value;
      Load(src, r).Ok? &&
      Load(src, r).value.messages == r.messages &&
      Load(src, r).value.cache == r.cache &&
      Position(src, r.cursor) <= Position(src, Load(src, r).value.cursor)
  {
    if s.cutoff.Some? {
      var c := s.cutoff.value;
      var r := LoadWindow(src, c, s);
      var p0 := Position(src, s.cursor);
      var q := StopAt(src, c, p0);
      StopAtStops(src, c, p0);
      LoadWindowCursor(src, c, s);
      LoadWindowCursor(src, c, r);
      var q2 := StopAt(src, c, q);
      BetweenNone(src, q, q2, c);
      assert CacheReactions(r.cache, []) == r.cache;
    }
  }
}

=== FILE: scenario.dfy ===
/**
 * A worked example: a channel with three messages, newest first, posted
 * on 5, 3 and 1 January 2024, with top reaction counts 5, 2 and 0, loaded
 * with the date set to 2 January 2024.
 */
module Scenario {
  import opened Wrappers
  import opened Source
  import opened Indexer
  import opened SessionStore
  import opened Retriever
  import opened Query
  import opened Listing

  /** Midnight UTC of 5, 4, 3, 2 and 1 January 2024, in milliseconds. */
  const Jan5: int := 1704412800000
  const Jan4: int := 1704326400000
  const Jan3: int := 1704240000000
  const Jan2: int := 1704153600000
  const Jan1: int := 1704067200000

  const Newest: Msg := Msg(3, Jan5, "https://discord.com/channels/7/8/3", [5, 1])
  const Middle: Msg := Msg(2, Jan3, "https://discord.com/channels/7/8/2", [2])
  const Oldest: Msg := Msg(1, Jan1, "https://discord.com/channels/7/8/1", [])

  const History: seq<Msg> := [Newest, Middle, Oldest]

  /** The session after setting the date and loading once. */
  const AfterLoad: Session :=
    Session([Newest, Middle],
            map[3 := Entry(5, Newest.url), 2 := Entry(2, Middle.url)],
            Some(1),
            Some(Jan2))

  /** Without a date the first page already fails. One page holds the
      whole history; its oldest message is before the date, so the load
      stops there, keeps the two newer messages, indexes them with their
      top counts and leaves the cursor on the oldest. */
  lemma LoadScenario()
    ensures Load(History, Initial) == Err(DateNotSet)
    ensures Load(History, SetCutoff(Initial, Jan2)) == Ok(AfterLoad)
  {
    assert Position(History, None) == 0;
    assert StopAt(History, Jan2, 0) == 3;
    assert Between(History, 0, 3, Jan2) == [Newest, Middle];
    assert Peak(Newest.reactions) == 5;
    assert Peak(Middle.reactions) == 2;
    assert [Newest, Middle][1..] == [Middle] && [Middle][1..] == [];
    var one := Remember(map[], Newest);
    assert one == map[3 := Entry(5, Newest.url)];
    var two := Remember(one, Middle);
    assert two == AfterLoad.cache;
    assert CacheReactions(map[], [Newest, Middle]) == CacheReactions(one, [Middle]) == CacheReactions(two, []);
    var s := SetCutoff(Initial, Jan2);
    assert [] + [Newest, Middle] == [Newest, Middle];
    assert LoadWindow(History, Jan2, s) ==
      Session([] + [Newest, Middle], CacheReactions(map[], [Newest, Middle]), Some(History[2].id), Some(Jan2));
  }

  /** After the load, the newest message qualifies up to 5 and the middle
      one up to 2. */
  lemma QualifyingScenario(t: Threshold)
    ensures Qualifying(AfterLoad.messages, AfterLoad.cache, t) ==
      Ok((if Reaches(5, t) then [Newest] else []) + (if Reaches(2, t) then [Middle] else []))
  {
    var s := AfterLoad;
    assert s.messages[1..] == [Middle] && [Middle][1..] == [];
    assert s.cache[3].count == 5 && s.cache[2].count == 2;
    assert Qualifying([], s.cache, t) == Ok([]);
    var tail := if Reaches(2, t) then [Middle] else [];
    assert Qualifying([Middle], s.cache, t) == Ok(tail) by {
      if Reaches(2, t) {
        assert [Middle] + [] == [Middle];
      }
    }
    if !Reaches(5, t) {
      assert [] + tail == tail;
    }
  }

  /** Counting with thresholds 2, 3 and 6, with NaN, and before the date
      is set or anything is loaded. */
  lemma CountScenario()
    ensures CountAtLeast(AfterLoad, Some(2)) == Ok(2)
    ensures CountAtLeast(AfterLoad, Some(3)) == Ok(1)
    ensures CountAtLeast(AfterLoad, Some(6)) == Ok(0)
    ensures CountAtLeast(AfterLoad, None) == Ok(0)
    ensures CountAtLeast(Initial, Some(2)) == Err(DateNotSet)
    ensures CountAtLeast(SetCutoff(Initial, Jan2), Some(2)) == Err(NotLoaded)
  {
    QualifyingScenario(Some(2));
    QualifyingScenario(Some(3));
    QualifyingScenario(Some(6));
    QualifyingScenario(None);
  }

  /** Listing with threshold 6, which no message reaches, and before
      anything is loaded. */
  lemma ListNoneScenario()
    ensures ListAtLeast(AfterLoad, Some(6)) == Ok(NoneFound)
    ensures ListAtLeast(Initial, Some(3)) == Err(NotLoaded)
  {
    QualifyingScenario(Some(6));
  }

  /** Listing with threshold 3: one text of one line, for the newest
      message. */
  lemma ListScenario()
    ensures ListAtLeast(AfterLoad, Some(3)) == Ok(Sent(["1. " + Newest.url]))
  {
    var s := AfterLoad;
    QualifyingScenario(Some(3));
    assert [Newest] + [] == [Newest];
    var lines := RankedLines([Newest], s.cache);
    assert Decimal.DigitChar(1) == '1';
    assert Decimal.Show(1) == "1";
    assert lines[0] == Line(1, Newest.url) == "1. " + Newest.url;
    assert lines == ["1. " + Newest.url];
    assert Chunks(lines) == [lines];
    assert Text.JoinLines(lines) == lines[0];
    assert Pages(lines) == [lines[0]];
  }

  /** The example's two lines, ranked 1 and 2 in load order. */
  lemma RankedScenario()
    ensures RankedLines([Newest, Middle], AfterLoad.cache) == ["1. " + Newest.url, "2. " + Middle.url]
  {
    var lines := RankedLines([Newest, Middle], AfterLoad.cache);
    assert Decimal.DigitChar(1) == '1' && Decimal.DigitChar(2) == '2';
    assert Decimal.Show(1) == "1" && Decimal.Show(2) == "2";
    assert lines[0] == Line(1, Newest.url) == "1. " + Newest.url;
    assert lines[1] == Line(2, Middle.url) == "2. " + Middle.url;
  }

  /** Listing with threshold 1: one text of two lines, ranked in load
      order. */
  lemma ListBothScenario()
    ensures ListAtLeast(AfterLoad, Some(1)) ==
      Ok(Sent(["1. " + Newest.url + "\n" + "2. " + Middle.url]))
  {
    QualifyingScenario(Some(1));
    assert [Newest] + [Middle] == [Newest, Middle];
    RankedScenario();
    var lines := ["1. " + Newest.url, "2. " + Middle.url];
    assert Chunks(lines) == [lines];
    assert lines[1..] == [lines[1]];
    assert Text.JoinLines(lines) == lines[0] + "\n" + lines[1];
    assert Pages(lines) == [lines[0] + "\n" + lines[1]];
    AppendAssoc(lines[0] + "\n", "2. ", Middle.url);
  }

  /** Loading with the date set to 4 January keeps only the newest message
      but still moves the cursor to the oldest message of the page. */
  const AfterNarrowLoad: Session :=
    Session([Newest], map[3 := Entry(5, Newest.url)], Some(1), Some(Jan4))

  /** Loads do not revisit what the cursor has passed: after loading with
      the date set to 4 January, setting it back to 2 January and loading
      again adds nothing, so the message of 3 January is never loaded. */
  lemma RedateScenario()
    ensures Load(History, SetCutoff(Initial, Jan4)) == Ok(AfterNarrowLoad)
    ensures Load(History, SetCutoff(AfterNarrowLoad, Jan2)).value.messages == [Newest]
    ensures Middle.ts > Jan2 && Middle !in [Newest]
  {
    assert Position(History, None) == 0;
    assert StopAt(History, Jan4, 0) == 3;
    assert [Newest, Middle, Oldest][1..] == [Middle, Oldest];
    assert Between(History, 2, 3, Jan4) == [];
    assert Between(History, 1, 3, Jan4) == [];
    assert Between(History, 0, 3, Jan4) == [Newest];
    assert Peak(Newest.reactions) == 5;
    assert CacheReactions(map[], [Newest]) == CacheReactions(Remember(map[], Newest), []);
    assert [] + [Newest] == [Newest];
    assert LoadWindow(History, Jan4, SetCutoff(Initial, Jan4)) ==
      Session([] + [Newest], CacheReactions(map[], [Newest]), Some(History[2].id), Some(Jan4));
    var again := SetCutoff(AfterNarrowLoad, Jan2);
    PositionAfter(History, 2);
    assert StopAt(History, Jan2, 3) == 3;
    assert Between(History, 3, 3, Jan2) == [];
    assert [Newest] + [] == [Newest];
  }
}

=== FILE: session.dfy ===
/**
 * The bot's module-level state, as one immutable record, and the
 * consistency invariant every load keeps.
 */
module SessionStore {
  import opened Wrappers
  import opened Source
  import opened Indexer

  /** Messages loaded so far (in arrival order), the reaction cache, the
      pagination cursor, and the cutoff timestamp. */
  datatype Session = Session(messages: seq<Msg>, cache: Cache, cursor: Option<Id>, cutoff: Option<int>)

  /** Why a command produced no result. */
  datatype Error =
    | DateNotSet    // the cutoff was never set
    | NotLoaded     // no message has been loaded yet
    | MissingEntry  // a loaded message has no cache entry

  /** The state at start-up: nothing set, nothing loaded. */
  const Initial: Session := Session([], map[], None, None)

  /** Setting the date replaces the cutoff and keeps everything loaded. */
  function SetCutoff(s: Session, t: int): (r: Session) {
    s.(cutoff := Some(t))
  }

  /** The session is a faithful index of the part of `src` read so far:
      every loaded message was read from above the cursor, no id is loaded
      twice, the cache holds exactly the loaded ids, each with the entry
      the indexer computed for that message, and messages were only ever
      loaded with a cutoff set. */
  predicate Consistent(src: seq<Msg>, s: Session) {
    && (forall i :: 0 <= i < |s.messages| ==> s.messages[i] in src[..Position(src, s.cursor)])
    && UniqueIds(s.messages)
    && s.cache.Keys == Ids(s.messages)
    && (forall i :: 0 <= i < |s.messages| ==> s.cache[s.messages[i].id] == Index(s.messages[i]))
    && (|s.messages| > 0 ==> s.cutoff.Some?)
  }

  /** Start-up state is consistent with any history. */
  lemma InitialConsistent(src: seq<Msg>)
    ensures Consistent(src, Initial)
  {
  }

  /** Changing the date after a load keeps the loaded index (and the
      cursor) as it is, and keeps it consistent. */
  lemma SetCutoffConsistent(src: seq<Msg>, s: Session, t: int)
    requires Consistent(src, s)
    ensures Consistent(src, SetCutoff(s, t))
    ensures SetCutoff(s, t).messages == s.messages && SetCutoff(s, t).cache == s.cache
    ensures SetCutoff(s, t).cursor == s.cursor && SetCutoff(s, t).cutoff == Some(t)
  {
  }
}

=== FILE: source.dfy ===
/**
 * The remote channel history as the bot sees it.
 *
 * The history is a fixed sequence of messages, newest first. A page request
 * names a cursor (the id of the oldest message read so far, or nothing) and
 * returns up to `PageLimit` of the messages that come after the cursor's
 * message in the history, still newest first, so that the final element of
 * a page is its oldest message.
 */
module Source {
  import opened Wrappers

  /** A message id. Discord ids are snowflakes, 64-bit numbers sent as
      decimal strings; they are only compared for equality here, so they
      are modelled by their numeric value. */
  type Id = nat

  /** One message: its id, its creation time in milliseconds, its link, and
      the count of each kind of reaction attached to it. */
  datatype Msg = Msg(id: Id, ts: int, url: string, reactions: seq<nat>)

  /** The page size the retriever asks for. */
  const PageLimit: nat := 100

  /** No id occurs twice. */
  predicate UniqueIds(ms: seq<Msg>) {
    forall i, j | 0 <= i < j < |ms| :: IdsDiffer(ms, i, j)
  }

  /** The messages at positions `i` and `j` carry different ids. Kept apart
      from `UniqueIds` so that its quantifier fires only where a proof asks
      about a particular pair. */
  predicate IdsDiffer(ms: seq<Msg>, i: int, j: int) {
    0 <= i < |ms| && 0 <= j < |ms| ==> ms[i].id != ms[j].id
  }

  /** Newest first: timestamps never increase along the history. */
  predicate Descending(ms: seq<Msg>) {
    forall i, j | 0 <= i < j < |ms| :: NoNewer(ms, i, j)
  }

  /** The message at position `j` is no newer than the one at `i`; kept
      apart from `Descending` for the same reason as `IdsDiffer`. */
  predicate NoNewer(ms: seq<Msg>, i: int, j: int) {
    0 <= i < |ms| && 0 <= j < |ms| ==> ms[j].ts <= ms[i].ts
  }

  /** The ids of a sequence of messages. */
  function Ids(ms: seq<Msg>): (ids: set<Id>) {
    set i | 0 <= i < |ms| :: ms[i].id
  }

  /** Index of the first message at or after `from` carrying `id`, if any. */
  function IndexFrom(ms: seq<Msg>, id: Id, from: nat): (r: Option<nat>)
    requires from <= |ms|
    ensures r.Some? ==> from <= r.value < |ms| && ms[r.value].id == id
    ensures r.Some? ==> forall j :: from <= j < r.value ==> ms[j].id != id
    ensures r.None? ==> forall j :: from <= j < |ms| ==> ms[j].id != id
    decreases |ms| - from
  {
    if from == |ms| then None
    else if ms[from].id == id then Some(from)
    else IndexFrom(ms, id, from + 1)
  }

  /** Splitting off the first message splits off its id. */
  lemma IdsCons(ms: seq<Msg>)
    requires |ms| > 0
    ensures Ids(ms) == {ms[0].id} + Ids(ms[1..])
  {
  }

  /** A history with unique ids keeps them without its first message, and
      that message's id does not occur again. */
  lemma UniqueIdsUncons(ms: seq<Msg>)
    requires UniqueIds(ms) && |ms| > 0
    ensures UniqueIds(ms[1..])
    ensures ms[0].id !in Ids(ms[1..])
  {
    forall i, j | 0 <= i < j < |ms[1..]|
      ensures IdsDiffer(ms[1..], i, j)
    {
      assert IdsDiffer(ms, i + 1, j + 1);
    }
    forall i | 0 <= i < |ms[1..]|
      ensures ms[1..][i].id != ms[0].id
    {
      assert IdsDiffer(ms, 0, i + 1);
    }
  }

  /** Putting a message with a fresh id in front keeps ids unique. */
  lemma UniqueIdsCons(m: Msg, ms: seq<Msg>)
    requires UniqueIds(ms) && m.id !in Ids(ms)
    ensures UniqueIds([m] + ms)
  {
    var r := [m] + ms;
    forall i, j | 0 <= i < j < |r|
      ensures IdsDiffer(r, i, j)
    {
      if i == 0 {
        assert r[j] == ms[j - 1];
      } else {
        assert IdsDiffer(ms, i - 1, j - 1);
      }
    }
  }

  /** The ids of two sequences joined are the ids of each. */
  lemma IdsConcat(a: seq<Msg>, b: seq<Msg>)
    ensures Ids(a + b) == Ids(a) + Ids(b)
  {
    forall id | id in Ids(a + b)
      ensures id in Ids(a) + Ids(b)
    {
      var i :| 0 <= i < |a + b| && (a + b)[i].id == id;
      if i < |a| {
        assert (a + b)[i] == a[i];
      } else {
        assert (a + b)[i] == b[i - |a|];
      }
    }
    forall id | id in Ids(a) + Ids(b)
      ensures id in Ids(a + b)
    {
      if id in Ids(a) {
        var i :| 0 <= i < |a| && a[i].id == id;
        assert (a + b)[i] == a[i];
      } else {
        var i :| 0 <= i < |b| && b[i].id == id;
        assert (a + b)[|a| + i] == b[i];
      }
    }
  }

  /** Joining two sequences with unique ids and no id in common keeps ids
      unique. */
  lemma UniqueIdsConcat(a: seq<Msg>, b: seq<Msg>)
    requires UniqueIds(a) && UniqueIds(b) && Ids(a) !! Ids(b)
    ensures UniqueIds(a + b)
  {
    var r := a + b;
    forall i, j | 0 <= i < j < |r|
      ensures IdsDiffer(r, i, j)
    {
      if j < |a| {
        assert IdsDiffer(a, i, j);
      } else if |a| <= i {
        assert IdsDiffer(b, i - |a|, j - |a|);
      } else {
        assert r[i] == a[i] && r[j] == b[j - |a|];
        assert a[i].id in Ids(a) && b[j - |a|].id in Ids(b);
      }
    }
  }

  /** A stretch of a history with unique ids has unique ids. */
  lemma UniqueIdsSlice(ms: seq<Msg>, i: nat, j: nat)
    requires UniqueIds(ms) && i <= j <= |ms|
    ensures UniqueIds(ms[i..j])
  {
    forall a, b | 0 <= a < b < j - i
      ensures IdsDiffer(ms[i..j], a, b)
    {
      assert IdsDiffer(ms, i + a, i + b);
    }
  }

  /** Messages taken from above position `p` and messages taken from below
      it share no id, when the history's ids are unique. */
  lemma StretchesDisjoint(src: seq<Msg>, p: nat, a: seq<Msg>, b: seq<Msg>)
    requires UniqueIds(src) && p <= |src|
    requires forall k :: 0 <= k < |a| ==> a[k] in src[..p]
    requires forall k :: 0 <= k < |b| ==> b[k] in src[p..]
    ensures Ids(a) !! Ids(b)
  {
    forall x, y | 0 <= x < |a| && 0 <= y < |b|
      ensures a[x].id != b[y].id
    {
      assert a[x] in src[..p];
      var u :| 0 <= u < p && src[..p][u] == a[x];
      assert b[y] in src[p..];
      var v :| 0 <= v < |src| - p && src[p..][v] == b[y];
      assert IdsDiffer(src, u, p + v);
    }
  }

  /** Index of the first message carrying `id`, if any. */
  function IndexOf(ms: seq<Msg>, id: Id): (r: Option<nat>)
    ensures r.Some? ==> r.value < |ms| && ms[r.value].id == id
    ensures r.Some? ==> forall j :: 0 <= j < r.value ==> ms[j].id != id
    ensures r.None? ==> forall j :: 0 <= j < |ms| ==> ms[j].id != id
  {
    IndexFrom(ms, id, 0)
  }

  /** Where the next page starts: at the top of the history without a
      cursor, just below the cursor's message otherwise, and at the bottom
      for a cursor the history does not contain. */
  function Position(src: seq<Msg>, cursor: Option<Id>): (p: nat)
    ensures p <= |src|
  {
    match cursor
    case None => 0
    case Some(id) =>
      match IndexOf(src, id)
      case Some(k) => k + 1
      case None => |src|
  }

  /** The page a request with this cursor returns. */
  function Fetch(src: seq<Msg>, cursor: Option<Id>): (page: seq<Msg>)
    ensures |page| <= PageLimit
    ensures Position(src, cursor) + |page| <= |src|
    ensures page == src[Position(src, cursor)..Position(src, cursor) + |page|]
    ensures |page| == 0 <==> Position(src, cursor) == |src|
    ensures |page| < PageLimit ==> Position(src, cursor) + |page| == |src|
  {
    var p := Position(src, cursor);
    src[p..if p + PageLimit <= |src| then p + PageLimit else |src|]
  }

  /** With unique ids, the cursor naming the k-th message makes the next
      page start right after it. */
  lemma PositionAfter(src: seq<Msg>, k: nat)
    requires UniqueIds(src)
    requires k < |src|
    ensures Position(src, Some(src[k].id)) == k + 1
  {
    var r := IndexOf(src, src[k].id);
    forall j | 0 <= j < k
      ensures src[j].id != src[k].id
    {
      assert IdsDiffer(src, j, k);
    }
    assert r.Some?;
  }
}

=== FILE: text.dfy ===
/**
 * Joining lines with newlines, as the listing does before sending a
 * chunk, and splitting them apart again.
 */
module Text {

  const Newline: char := '\n'

  /** The first position at or after `from` holding `c`, or `|s|` when
      there is none. */
  function Find(s: string, c: char, from: nat): (k: nat)
    requires from <= |s|
    ensures from <= k <= |s|
    ensures k < |s| ==> s[k] == c
    ensures forall j :: from <= j < k ==> s[j] != c
    decreases |s| - from
  {
    if from == |s| then from
    else if s[from] == c then from
    else Find(s, c, from + 1)
  }

  /** Where `c` first appears at `k`, that is what `Find` reports. */
  lemma FindFirst(s: string, c: char, k: nat)
    requires k <= |s| && (k < |s| ==> s[k] == c)
    requires forall j :: 0 <= j < k ==> s[j] != c
    ensures Find(s, c, 0) == k
  {
  }

  /** The lines one after the other, separated by single newlines. */
  function JoinLines(lines: seq<string>): (text: string)
    decreases |lines|
  {
    if |lines| == 0 then ""
    else if |lines| == 1 then lines[0]
    else lines[0] + [Newline] + JoinLines(lines[1..])
  }

  /** The pieces of `text` between newlines; a text without newlines is
      one line. */
  function SplitLines(text: string): (lines: seq<string>)
    ensures |lines| > 0
    decreases |text|
  {
    var k := Find(text, Newline, 0);
    if k == |text| then [text]
    else [text[..k]] + SplitLines(text[k + 1..])
  }

  predicate NoNewline(line: string) {
    forall i :: 0 <= i < |line| ==> line[i] != Newline
  }

  /** Splitting a join gives back the lines, as long as there is at least
      one and none holds a newline itself. */
  lemma {:induction false} SplitJoin(lines: seq<string>)
    requires |lines| > 0
    requires forall i :: 0 <= i < |lines| ==> NoNewline(lines[i])
    ensures SplitLines(JoinLines(lines)) == lines
    decreases |lines|
  {
    var first := lines[0];
    assert NoNewline(first);
    if |lines| == 1 {
      FindFirst(first, Newline, |first|);
    } else {
      var rest := JoinLines(lines[1..]);
      var text := first + [Newline] + rest;
      FindFirst(text, Newline, |first|);
      assert text[..|first|] == first;
      assert text[|first| + 1..] == rest;
      SplitJoin(lines[1..]);
    }
  }
}

=== FILE: wrappers.dfy ===
/** Failure-carrying wrappers and a sequence law shared by the rest of
    the model. */
module Wrappers {

  /** A value that may be absent (the bot's `null`). */
  datatype Option<+T> = None | Some(value: T)

  /** Either a value or the reason no value was produced. */
  datatype Result<+T, +E> = Ok(value: T) | Err(error: E)

  /** Concatenation is associative; stated once so that proofs need not
      rediscover it element by element. */
  lemma AppendAssoc<T>(a: seq<T>, b: seq<T>, c: seq<T>)
    ensures (a + b) + c == a + (b + c)
  {
  }
}
